=== FILE: README.md ===
# Meshi Roulette: decision logic of the client, in Dafny

Meshi Roulette is an Android client for browsing nearby restaurants. Users
filter them by genre, price range and "open now", and can ask for a random
pick (a "roulette spin"). This project models the app's pure decision logic
and proves properties about it:

- **Domain model** (`DomainModel`): the `Genre` and `PriceRange` enums and
  their wire values. Their decoders never fail. Unknown or missing genres
  decode to `Other`, and unknown or missing price codes decode to `Medium`.
  The `Restaurant` record lives here too.
- **Mapping** (`RestaurantDtos`, `RestaurantMapper`): the wire records, and
  the field-by-field projection from a wire record to a `Restaurant`.
- **Result envelope** (`NetworkResults`): `Loading | Success(data) | Error(message, code?)`.
- **Repository** (`RestaurantRepository`): filter normalisation before a
  request, and the classification of the response into the envelope. Each
  operation is modelled as the trace its flow emits, `[Loading, terminal]`.
  The network is a function parameter from the request sent to an abstract
  outcome: `Ok(body?) | HttpFail(code) | Threw(message?)`.
- **View models** (`RestaurantListViewModel`, `RouletteViewModel`,
  `RestaurantDetailViewModel`): each is a pure reducer over an immutable UI
  state. Events are user intents and arriving envelopes. `Lang.Collect`
  folds a flow's emissions into the state, as `collect { update { ... } }`
  does. `Dispatch` reports which fetch an intent starts, and with which
  parameters.

The source is in the middle of a migration, and some of its files disagree.
The model picks one consistent shape:

- Price codes are integers, as in the domain enum and the repository. The
  wire record and the HTTP interface declare them as strings.
- `Restaurant` has the fields the mapper fills in (`rating`, `description`).
  `Restaurant.kt` declares `googleMapsUrl` and `closingHours` instead.
- The wire record's `genre` and `priceRange` may be absent. Both decoders
  accept null, and the JSON decoder can deliver null despite the
  non-nullable Kotlin types.
- State fields follow the view models. The list screen holds a genre *set*,
  where `RestaurantListUiState.kt` declares a single genre. The roulette
  state has `candidateRestaurants` and `isOpenNowOnly`, which
  `RouletteUiState.kt` lacks. Defaults come from the UI-state files. The
  genre set starts empty, which means "all genres". The missing roulette
  fields start as `[]` and `false`.
- The view models, use cases and repository disagree on argument lists. So
  the view models' request parameters (`RequestParams`, `SpinParamsOf`,
  `CandidateParamsOf`) are modelled as the view models compute them. The
  end-to-end lemmas fold the repository's trace into the view-model state.
- The open-now flag never reaches a modelled request. The view models
  compute it (`RequestParams`, `SpinParamsOf`, `CandidateParamsOf`), but
  the repository takes only a genre and a price range
  (`RestaurantRepositoryImpl.kt:19-22,57-60`). So `LoadSettles`,
  `SpinSettles` and `RefreshSettles` query with genre and price alone, and
  the flag has no effect on any response the model folds in.
- List mapping maps every element one to one and drops none
  (`RestaurantMapper.kt:24`).
- Latitude, longitude and rating are Kotlin `Double`s. Here they are opaque
  64-bit payloads (`DomainModel.Double`) that are only carried, never
  computed with.

## Model

| member | source | states |
|---|---|---|
| Lang.TakeIf | app/src/main/java/com/fukudai/meshiroulette/presentation/list/RestaurantListViewModel.kt:40 | `x.takeIf { keep }`: the value exactly when the test holds, null otherwise; every request parameter is built this way |
| Lang.Find | app/src/main/java/com/fukudai/meshiroulette/domain/model/Restaurant.kt:34 | `entries.find`: a returned element is in the list and satisfies the test; null exactly when no element does; the first element wins when it matches |
| Lang.FindReturnsFirstMatch | app/src/main/java/com/fukudai/meshiroulette/domain/model/Restaurant.kt:34 | the element `find` returns is the first match: every element before it fails the test |
| DomainModel.GenreFromApiValue | app/src/main/java/com/fukudai/meshiroulette/domain/model/Restaurant.kt:32-35 | decoding a genre never fails and never yields `All`; a real genre's wire value decodes to a genre with that wire value; anything else, null and "" included, decodes to `Other` |
| DomainModel.GenreMissingDecodesToOther | app/src/main/java/com/fukudai/meshiroulette/domain/model/Restaurant.kt:33 | null and the empty string both decode to `Other` |
| DomainModel.GenreUnknownDecodesToOther | app/src/main/java/com/fukudai/meshiroulette/domain/model/Restaurant.kt:34 | a string that is no genre's wire value decodes to `Other` |
| DomainModel.GenreApiValueInjective | app/src/main/java/com/fukudai/meshiroulette/domain/model/Restaurant.kt:18-29 | the wire values of the genres other than `All` are pairwise distinct |
| DomainModel.GenreRoundTrip | app/src/main/java/com/fukudai/meshiroulette/domain/model/Restaurant.kt:17-35 | decoding the wire value of any genre but `All` gives that genre back; decoding a wire value never gives `All` |
| DomainModel.PriceRangeFromApiValue | app/src/main/java/com/fukudai/meshiroulette/domain/model/Restaurant.kt:46-49 | null and any code outside 0..3 decode to `Medium`; a code in 0..3 decodes to the range with that code |
| DomainModel.PriceRangeRoundTrip | app/src/main/java/com/fukudai/meshiroulette/domain/model/Restaurant.kt:39-49 | decoding any price range's code gives it back, `All` included (0 is `All`, not the fallback) |
| DomainModel.PriceRangeApiValueInjective | app/src/main/java/com/fukudai/meshiroulette/domain/model/Restaurant.kt:40-43 | two price ranges share a code only if they are the same range |
| RestaurantMapper.ToDomain | app/src/main/java/com/fukudai/meshiroulette/data/model/RestaurantMapper.kt:7-21 | id, name, address and every optional field are copied unchanged, absence included; the genre is the decoded wire genre and never `All`; a missing price code becomes `Medium` |
| RestaurantMapper.ToDomainList | app/src/main/java/com/fukudai/meshiroulette/data/model/RestaurantMapper.kt:23-25 | the mapped list has the input's length; element i is the mapping of input element i; no mapped genre is `All` |
| RestaurantMapper.ToDomainInvertsToDto | app/src/main/java/com/fukudai/meshiroulette/data/model/RestaurantMapper.kt:7-21 | every restaurant with a real genre is recovered exactly from its wire record |
| RestaurantMapper.ToDtoInvertsToDomain | app/src/main/java/com/fukudai/meshiroulette/data/model/RestaurantMapper.kt:7-21 | a wire record with both codes present and valid loses nothing in mapping |
| RestaurantMapper.ToDomainListAppend | app/src/main/java/com/fukudai/meshiroulette/data/model/RestaurantMapper.kt:23-25 | mapping a concatenation is the concatenation of the mappings |
| RestaurantRepository.GenreParam | app/src/main/java/com/fukudai/meshiroulette/data/repository/RestaurantRepositoryImpl.kt:26 | a null or `All` genre filter is omitted, and nothing else is; a sent value is the genre's wire value, decodes back to the chosen genre and is never `All`'s wire value |
| RestaurantRepository.PriceRangeParam | app/src/main/java/com/fukudai/meshiroulette/data/repository/RestaurantRepositoryImpl.kt:27 | a null or `All` price filter is omitted, and nothing else is; a sent code is the range's tier code, lies in 1..3 and decodes back to the chosen range |
| RestaurantRepository.Classify | app/src/main/java/com/fukudai/meshiroulette/data/repository/RestaurantRepositoryImpl.kt:29-37 | a successful response with a body gives Success with the converted body; one without a body gives the empty-response error with no code; a failed response gives the generic error with its status code, the only case that carries a code; an exception gives its message, or the unknown-error message when it has none |
| RestaurantRepository.GetRestaurants | app/src/main/java/com/fukudai/meshiroulette/data/repository/RestaurantRepositoryImpl.kt:19-39 | the trace is `Loading` then one terminal envelope, the classification of the response to the normalised query; listed genres are never `All` |
| RestaurantRepository.GetRestaurantDetail | app/src/main/java/com/fukudai/meshiroulette/data/repository/RestaurantRepositoryImpl.kt:41-55 | the trace is `Loading` then one terminal envelope, the classification of the response for the requested id |
| RestaurantRepository.SpinRoulette | app/src/main/java/com/fukudai/meshiroulette/data/repository/RestaurantRepositoryImpl.kt:57-78 | the trace is `Loading` then one terminal envelope, the classification of the response to the normalised roulette request |
| RestaurantRepository.ErrorCategoriesDistinct | app/src/main/java/com/fukudai/meshiroulette/data/repository/RestaurantRepositoryImpl.kt:32-37 | an empty body, an HTTP failure and an exception without a message produce three different errors |
| RestaurantListViewModel.RequestParams | app/src/main/java/com/fukudai/meshiroulette/presentation/list/RestaurantListViewModel.kt:37-40 | an empty genre set is sent as null and a non-empty one as itself; a false open-now flag is sent as null, and true as true |
| RestaurantListViewModel.RequestParamsFaithful | app/src/main/java/com/fukudai/meshiroulette/presentation/list/RestaurantListViewModel.kt:37-40 | two states send the same parameters exactly when their filters agree |
| RestaurantListViewModel.InitialLoadIsUnfiltered | app/src/main/java/com/fukudai/meshiroulette/presentation/list/RestaurantListViewModel.kt:29-40 | the load started on creation sends no genre, the `All` price range and no open-now flag, and leaves the state alone |
| RestaurantListViewModel.OnResult | app/src/main/java/com/fukudai/meshiroulette/presentation/list/RestaurantListViewModel.kt:42-60 | Loading sets the loading flag and clears the error, keeping the list; Success stores the data and clears both; Error clears the loading flag, stores the message and keeps the list; filters and the sheet flag never change |
| RestaurantListViewModel.ToggleGenre | app/src/main/java/com/fukudai/meshiroulette/presentation/list/RestaurantListViewModel.kt:70-82 | `All` empties the genre set; another genre flips its own membership and no other; nothing but the genre set changes; `All` stays out of the set |
| RestaurantListViewModel.ToggleGenreTwice | app/src/main/java/com/fukudai/meshiroulette/presentation/list/RestaurantListViewModel.kt:75-79 | toggling the same real genre twice restores the original state |
| RestaurantListViewModel.SetPriceRange | app/src/main/java/com/fukudai/meshiroulette/presentation/list/RestaurantListViewModel.kt:86-89 | sets the price filter and changes nothing else |
| RestaurantListViewModel.SetOpenNowOnly | app/src/main/java/com/fukudai/meshiroulette/presentation/list/RestaurantListViewModel.kt:91-94 | sets the open-now flag and changes nothing else |
| RestaurantListViewModel.SetFilterSheet | app/src/main/java/com/fukudai/meshiroulette/presentation/list/RestaurantListViewModel.kt:96-102 | sets the sheet flag and changes nothing else |
| RestaurantListViewModel.ClearError | app/src/main/java/com/fukudai/meshiroulette/presentation/list/RestaurantListViewModel.kt:104-106 | clears the error and changes nothing else |
| RestaurantListViewModel.Dispatch | app/src/main/java/com/fukudai/meshiroulette/presentation/list/RestaurantListViewModel.kt:70-106 | each intent yields the state of its own operation (a load leaves the state as it is); filter changes and an explicit load start a load with the parameters of that updated state; the sheet and error intents start none |
| RestaurantListViewModel.CollectKeepsFilters | app/src/main/java/com/fukudai/meshiroulette/presentation/list/RestaurantListViewModel.kt:41-61 | folding any emissions leaves the filters and the sheet flag unchanged |
| RestaurantListViewModel.CollectLoadingFlag | app/src/main/java/com/fukudai/meshiroulette/presentation/list/RestaurantListViewModel.kt:41-61 | after a run of emissions the screen is loading exactly when the last one was `Loading` |
| RestaurantListViewModel.LoadSettles | app/src/main/java/com/fukudai/meshiroulette/presentation/list/RestaurantListViewModel.kt:33-61 | a whole load through the repository ends not loading; on a response with a body it shows the mapped list with no error; otherwise it keeps the old list and shows an error |
| RestaurantListViewModel.GenresInvariantPreserved | app/src/main/java/com/fukudai/meshiroulette/presentation/list/RestaurantListViewModel.kt:70-106 | every intent and every envelope keeps `All` out of the genre set |
| RestaurantListViewModel.GenresInvariantAlwaysHolds | app/src/main/java/com/fukudai/meshiroulette/presentation/list/RestaurantListViewModel.kt:70-82 | starting from the initial state, `All` is never in the genre set |
| RouletteViewModel.SpinParamsOf | app/src/main/java/com/fukudai/meshiroulette/presentation/roulette/RouletteViewModel.kt:33-36 | a spin passes the selected genre and price as they are; a false open-now flag becomes null |
| RouletteViewModel.CandidateParamsOf | app/src/main/java/com/fukudai/meshiroulette/presentation/roulette/RouletteViewModel.kt:63-66 | an `All` genre, an `All` price and a false open-now flag become null; other values are passed as they are |
| RouletteViewModel.SpinAndCandidatesSendSameFilters | app/src/main/java/com/fukudai/meshiroulette/presentation/roulette/RouletteViewModel.kt:33-66 | the spin request (lines 33-36) and the candidate query (lines 63-66): after the repository normalises them, the roulette request and the candidate list query carry the same genre and price, each sent exactly when it is not `All` |
| RouletteViewModel.InitialRefreshIsUnfiltered | app/src/main/java/com/fukudai/meshiroulette/presentation/roulette/RouletteViewModel.kt:27-29 | the candidate refresh started on creation sends no genre, price or open-now filter |
| RouletteViewModel.OnSpinResult | app/src/main/java/com/fukudai/meshiroulette/presentation/roulette/RouletteViewModel.kt:37-57 | Loading sets the spinning flag and clears the error, keeping the pick; Success stores the pick and clears both; Error clears the flag, stores the message and keeps the pick; nothing else changes |
| RouletteViewModel.OnCandidatesResult | app/src/main/java/com/fukudai/meshiroulette/presentation/roulette/RouletteViewModel.kt:67-71 | only Success changes the state, and only the candidate list; Loading and Error change nothing |
| RouletteViewModel.SetGenre | app/src/main/java/com/fukudai/meshiroulette/presentation/roulette/RouletteViewModel.kt:75-78 | sets the genre filter and changes nothing else |
| RouletteViewModel.SetPriceRange | app/src/main/java/com/fukudai/meshiroulette/presentation/roulette/RouletteViewModel.kt:80-83 | sets the price filter and changes nothing else |
| RouletteViewModel.SetOpenNowOnly | app/src/main/java/com/fukudai/meshiroulette/presentation/roulette/RouletteViewModel.kt:85-88 | sets the open-now flag and changes nothing else |
| RouletteViewModel.SetFilterSheet | app/src/main/java/com/fukudai/meshiroulette/presentation/roulette/RouletteViewModel.kt:90-96 | sets the sheet flag and changes nothing else |
| RouletteViewModel.ClearResult | app/src/main/java/com/fukudai/meshiroulette/presentation/roulette/RouletteViewModel.kt:98-100 | clears the pick and the error and changes nothing else |
| RouletteViewModel.ClearError | app/src/main/java/com/fukudai/meshiroulette/presentation/roulette/RouletteViewModel.kt:102-104 | clears the error and changes nothing else |
| RouletteViewModel.Dispatch | app/src/main/java/com/fukudai/meshiroulette/presentation/roulette/RouletteViewModel.kt:31-104 | each intent yields the state of its own operation (a spin leaves the state as it is); only a spin starts a roulette request, with the current parameters; exactly the filter setters refresh the candidates, with the parameters of the updated state |
| RouletteViewModel.FailedRefreshChangesNothing | app/src/main/java/com/fukudai/meshiroulette/presentation/roulette/RouletteViewModel.kt:67-71 | a candidate refresh that never succeeds leaves the state exactly as it was |
| RouletteViewModel.RefreshTouchesOnlyCandidates | app/src/main/java/com/fukudai/meshiroulette/presentation/roulette/RouletteViewModel.kt:67-71 | whatever a refresh emits, only the candidate list can change |
| RouletteViewModel.FailedSpinKeepsPick | app/src/main/java/com/fukudai/meshiroulette/presentation/roulette/RouletteViewModel.kt:51-54 | emissions that never succeed leave the displayed pick unchanged |
| RouletteViewModel.SpinSettles | app/src/main/java/com/fukudai/meshiroulette/presentation/roulette/RouletteViewModel.kt:31-58 | a whole spin through the repository ends not spinning; on a response with a body it picks the mapped restaurant with no error; otherwise it keeps the old pick and shows an error; candidates are untouched |
| RouletteViewModel.RefreshSettles | app/src/main/java/com/fukudai/meshiroulette/presentation/roulette/RouletteViewModel.kt:61-72 | a whole refresh through the repository replaces the candidates with the mapped list on a response with a body, and changes nothing otherwise |
| RestaurantDetailViewModel.Create | app/src/main/java/com/fukudai/meshiroulette/presentation/detail/RestaurantDetailViewModel.kt:22-29 | construction succeeds exactly when a restaurant id is supplied; the state holder then keeps that id and starts in the initial state |
| RestaurantDetailViewModel.OnResult | app/src/main/java/com/fukudai/meshiroulette/presentation/detail/RestaurantDetailViewModel.kt:33-53 | Loading sets the loading flag and clears the error, keeping the restaurant; Success stores it and clears both; Error clears the flag, stores the message and keeps a previously loaded restaurant |
| RestaurantDetailViewModel.ClearError | app/src/main/java/com/fukudai/meshiroulette/presentation/detail/RestaurantDetailViewModel.kt:57-59 | clears the error and changes nothing else |
| RestaurantDetailViewModel.FailedLoadKeepsRestaurant | app/src/main/java/com/fukudai/meshiroulette/presentation/detail/RestaurantDetailViewModel.kt:47-50 | emissions that never succeed keep a previously loaded restaurant |
| RestaurantDetailViewModel.LoadSettles | app/src/main/java/com/fukudai/meshiroulette/presentation/detail/RestaurantDetailViewModel.kt:31-55 | a load of the state holder's own id through the repository ends not loading; on a response with a body it shows the mapped restaurant with no error; otherwise it keeps the old one and shows an error |

## Left out

- Screens, components, navigation, theming, the activity and dependency injection: these render and wire the logic but decide nothing.
- The roulette spin animation: it cycles through the candidates on a wall-clock timer, then waits on the view model's flow. Its subject is timing and concurrency. The model keeps what the animation reads, the candidate list, and the spin result it settles on.
- Coroutines: launching, cancelling the previous list load, and the `finally` block that clears the loading flag of a cancelled load. These are concurrency concerns. Each load is modelled as its emissions arriving in order, with no interleaving of two loads.
- Exceptions thrown while emitting, and cancellation caught by `catch (e: Exception)`: these too are concurrency concerns. Every exception is the abstract `Threw` outcome of the API call.
- The HTTP interface and the JSON annotations: the network is a function from the request sent to an abstract outcome. The repository's three kinds of outcome are modelled exactly. What counts as a "successful" status code is the HTTP library's decision and is not modelled.
- The use-case classes: each only forwards to the repository. `GetRestaurantsUseCase` takes the repository's own `(genre, priceRange)`. Both of its callers also pass an open-now flag, which it does not take. The list screen passes a genre list where it takes a single genre (`RestaurantListViewModel.kt:38`). The roulette screen's single genre matches it (`RouletteViewModel.kt:64`). `GetRestaurantDetailUseCase` takes an id and matches both its caller and the repository. `SpinRouletteUseCase` takes a genre list and an open-now flag, and forwards them to a `spinRoulette` that takes a single genre and a price range.
- The display labels of `Genre` and `PriceRange`: they are only shown on screen.
- Numeric treatment of latitude, longitude and rating: these are floating point and are only carried.
- RestaurantListViewModel.RequestParams: sends the selected genres as a set. The source sends `selectedGenres.toList()`, a list in the set's insertion order, and the model does not keep that order. Nothing downstream depends on it.
- The list response's `total` field: it is carried in the wire record but never read.

=== FILE: domain_model.dfy ===
/**
 * The domain model: the `Genre` and `PriceRange` filter enums with their wire
 * values and their never-failing decoders, and the `Restaurant` record.
 */
module DomainModel {
  import opened Lang

  /** A Kotlin `Double`, carried as its 64 IEEE-754 bits; nothing here computes with it. */
  datatype Double = Double(bits: bv64)

  /**
   * The genre enum. `All` stands for "no genre filter"; `Other` is the
   * fallback for unknown wire values.
   */
  datatype Genre =
    | All | Teishoku | Chinese | Ramen | Curry | Udon | Gyudon
    | Tonkatsu | Yakiniku | Izakaya | Cafe | Other
  {
    /** The string the API uses for this genre. */
    function ApiValue(): string {
      match this
      case All => ""
      case Teishoku => "定食"
      case Chinese => "中華"
      case Ramen => "ラーメン"
      case Curry => "カレー"
      case Udon => "うどん"
      case Gyudon => "牛丼"
      case Tonkatsu => "とんかつ"
      case Yakiniku => "焼肉"
      case Izakaya => "居酒屋"
      case Cafe => "カフェ"
      case Other => "other"
    }
  }

  /** The genres in declaration order, which is the order `entries.find` searches. */
  const GenreEntries: seq<Genre> :=
    [Genre.All, Teishoku, Chinese, Ramen, Curry, Udon, Gyudon, Tonkatsu, Yakiniku, Izakaya, Cafe, Other]

  /** `s` is the wire value of some real genre (not of the `All` filter marker). */
  ghost predicate IsGenreWireValue(s: string) {
    exists g: Genre :: g != Genre.All && g.ApiValue() == s
  }

  /**
   * `Genre.fromApiValue`: null or empty input gives `Other`, otherwise the
   * first entry whose wire value matches, falling back to `Other`.
   */
  function GenreFromApiValue(value: Option<string>): (r: Genre)
    ensures r != Genre.All
    ensures value.Some? && IsGenreWireValue(value.value) ==> r.ApiValue() == value.value
    ensures !(value.Some? && IsGenreWireValue(value.value)) ==> r == Other
  {
    if value.None? || value.value == "" then Other
    else
      match Find(GenreEntries, (g: Genre) => g.ApiValue() == value.value)
      case Some(g) => g
      case None => Other
  }

  /** The price-range enum, with the API's integer tier codes. `All` means "no price filter". */
  datatype PriceRange = All | Cheap | Medium | Expensive
  {
    /** The integer tier code the API uses for this price range. */
    function ApiValue(): int {
      match this
      case All => 0
      case Cheap => 1
      case Medium => 2
      case Expensive => 3
    }
  }

  /** The price ranges in declaration order. */
  const PriceRangeEntries: seq<PriceRange> := [PriceRange.All, Cheap, Medium, Expensive]

  /**
   * `PriceRange.fromApiValue`: null gives `Medium`, otherwise the entry whose
   * code matches, falling back to `Medium`.
   */
  function PriceRangeFromApiValue(value: Option<int>): (r: PriceRange)
    ensures value.None? ==> r == Medium
    ensures value.Some? && 0 <= value.value <= 3 ==> r.ApiValue() == value.value
    ensures value.Some? && !(0 <= value.value <= 3) ==> r == Medium
  {
    if value.None? then Medium
    else
      match Find(PriceRangeEntries, (p: PriceRange) => p.ApiValue() == value.value)
      case Some(p) => p
      case None => Medium
  }

  /** A restaurant as the app's screens see it; rebuilt wholesale on every fetch. */
  datatype Restaurant = Restaurant(
    id: string,
    name: string,
    genre: Genre,
    priceRange: PriceRange,
    address: string,
    latitude: Option<Double>,
    longitude: Option<Double>,
    imageUrl: Option<string>,
    rating: Option<Double>,
    openingHours: Option<string>,
    description: Option<string>
  )

  /** Missing and empty wire genres both decode to `Other`. */
  lemma GenreMissingDecodesToOther()
    ensures GenreFromApiValue(None) == Other
    ensures GenreFromApiValue(Some("")) == Other
  {
  }

  /** Any string that is no genre's wire value decodes to `Other`; decoding never fails. */
  lemma GenreUnknownDecodesToOther(s: string)
    requires forall g: Genre :: g.ApiValue() != s
    ensures GenreFromApiValue(Some(s)) == Other
  {
  }

  /** The wire values of the genres other than `All` are pairwise distinct. */
  lemma GenreApiValueInjective(g: Genre, h: Genre)
    requires g != Genre.All && h != Genre.All
    ensures g.ApiValue() == h.ApiValue() <==> g == h
  {
  }

  /** Decoding inverts encoding for every genre but `All`, which has no wire form of its own. */
  lemma GenreRoundTrip(g: Genre)
    ensures g != Genre.All ==> GenreFromApiValue(Some(g.ApiValue())) == g
    ensures GenreFromApiValue(Some(g.ApiValue())) != Genre.All
  {
  }

  /** Decoding inverts encoding for every price range, `All` included: code 0 is `All`, not the fallback. */
  lemma PriceRangeRoundTrip(p: PriceRange)
    ensures PriceRangeFromApiValue(Some(p.ApiValue())) == p
  {
  }

  /** The tier codes are pairwise distinct, so a code names at most one price range. */
  lemma PriceRangeApiValueInjective(p: PriceRange, q: PriceRange)
    ensures p.ApiValue() == q.ApiValue() <==> p == q
  {
  }
}

=== FILE: lang.dfy ===
/**
 * The handful of Kotlin standard-library behaviours the app relies on:
 * nullable values (`T?`), `takeIf`, `Iterable.find` and folding a flow of
 * emissions into a state holder.
 */
module Lang {

  /** A Kotlin nullable value: `None` is `null`. */
  datatype Option<+T> = None | Some(value: T)

  /** Kotlin's `x.takeIf { keep }`: the value when the test holds, else null. */
  function TakeIf<T>(x: T, keep: bool): (r: Option<T>)
    ensures r.Some? <==> keep
    ensures r.Some? ==> r.value == x
  {
    if keep then Some(x) else None
  }

  /**
   * Kotlin's `entries.find(p)`: the first element satisfying `p`, or null.
   * The search runs front to back, so an earlier match shadows a later one.
   */
  function Find<T>(es: seq<T>, p: T -> bool): (r: Option<T>)
    ensures r.Some? ==> r.value in es && p(r.value)
    ensures r.None? <==> forall i :: 0 <= i < |es| ==> !p(es[i])
    ensures |es| > 0 && p(es[0]) ==> r == Some(es[0])
  {
    if es == [] then None
    else if p(es[0]) then Some(es[0])
    else Find(es[1..], p)
  }

  /** `Find` returns the first match: every element before the one it returns fails the test. */
  lemma {:induction false} FindReturnsFirstMatch<T>(es: seq<T>, p: T -> bool)
    ensures Find(es, p).Some? ==>
      exists i :: 0 <= i < |es| && es[i] == Find(es, p).value && forall j :: 0 <= j < i ==> !p(es[j])
  {
    if es != [] && !p(es[0]) && Find(es, p).Some? {
      var r := Find(es[1..], p);
      FindReturnsFirstMatch(es[1..], p);
      var k :| 0 <= k < |es[1..]| && es[1..][k] == r.value && forall j :: 0 <= j < k ==> !p(es[1..][j]);
      assert es[k + 1] == r.value;
      forall j | 0 <= j < k + 1
        ensures !p(es[j])
      {
        if j > 0 {
          assert es[j] == es[1..][j - 1];
        }
      }
    }
  }

  /**
   * Applies each emission of a flow, in order, to a state holder: this is what
   * `collect { result -> _uiState.update { ... } }` does to the state.
   */
  function Collect<S, E>(s: S, events: seq<E>, step: (S, E) -> S): S
    decreases |events|
  {
    if events == [] then s
    else Collect(step(s, events[0]), events[1..], step)
  }

  /** Folding a two-emission flow applies the first emission, then the second. */
  lemma CollectTwo<S, E>(s: S, events: seq<E>, step: (S, E) -> S)
    requires |events| == 2
    ensures Collect(s, events, step) == step(step(s, events[0]), events[1])
  {
    var s1 := step(s, events[0]);
    assert Collect(s, events, step) == Collect(s1, events[1..], step);
    assert events[1..][1..] == [];
    assert Collect(s1, events[1..], step) == Collect(step(s1, events[1]), [], step);
  }
}

=== FILE: network_result.dfy ===
/**
 * The result envelope every fetch is reported through: `Loading` first, then
 * one terminal `Success` or `Error`.
 */
module NetworkResults {
  import opened Lang

  /** `NetworkResult<T>`; only an HTTP failure puts a status code in `Error`. */
  datatype NetworkResult<+T> = Loading | Success(data: T) | Error(message: string, code: Option<int>)
  {
    /** The envelope ends a fetch. */
    predicate IsTerminal() {
      !Loading?
    }
  }

  /** A well-formed emission sequence for one fetch: `Loading`, then exactly one terminal envelope. */
  predicate IsFetchTrace<T>(trace: seq<NetworkResult<T>>) {
    |trace| == 2 && trace[0].Loading? && trace[1].IsTerminal()
  }
}

=== FILE: restaurant_detail_view_model.dfy ===
/**
 * The restaurant-detail screen's state holder: built for one restaurant id,
 * it loads that restaurant on creation and folds the envelopes into its state.
 */
module RestaurantDetailViewModel {
  import opened Lang
  import opened DomainModel
  import opened NetworkResults
  import RestaurantDtos
  import RestaurantMapper
  import RestaurantRepository

  /** The detail screen's UI state. */
  datatype DetailUiState = DetailUiState(isLoading: bool, restaurant: Option<Restaurant>, error: Option<string>)

  /** The state the screen starts in: not loading, nothing loaded, no error. */
  const InitialState: DetailUiState := DetailUiState(false, None, None)

  /** A detail state holder: the id it was built for, which it loads, and its UI state. */
  datatype DetailViewModel = DetailViewModel(restaurantId: string, state: DetailUiState)

  /**
   * Construction: the navigation argument `restaurantId` must be present,
   * otherwise construction fails (`checkNotNull` throws), modelled as `None`.
   */
  function Create(restaurantId: Option<string>): (r: Option<DetailViewModel>)
    ensures r.Some? <==> restaurantId.Some?
    ensures r.Some? ==> r.value.restaurantId == restaurantId.value && r.value.state == InitialState
  {
    match restaurantId
    case Some(id) => Some(DetailViewModel(id, InitialState))
    case None => None
  }

  /** The state after one envelope of a detail load arrives. */
  function OnResult(s: DetailUiState, result: NetworkResult<Restaurant>): (t: DetailUiState)
    ensures t.isLoading <==> result.Loading?
    ensures t.error.Some? <==> result.Error?
    ensures result.Error? ==> t.error == Some(result.message)
    ensures result.Success? ==> t.restaurant == Some(result.data)
    ensures !result.Success? ==> t.restaurant == s.restaurant
  {
    match result
    case Loading => s.(isLoading := true, error := None)
    case Success(data) => s.(isLoading := false, restaurant := Some(data), error := None)
    case Error(message, _) => s.(isLoading := false, error := Some(message))
  }

  /** `clearError`: drops the error and changes nothing else. */
  function ClearError(s: DetailUiState): (t: DetailUiState)
    ensures t.error.None?
    ensures t.(error := s.error) == s
  {
    s.(error := None)
  }

  /** Emissions that never succeed keep a previously loaded restaurant on screen. */
  lemma {:induction false} FailedLoadKeepsRestaurant(s: DetailUiState, results: seq<NetworkResult<Restaurant>>)
    requires forall i :: 0 <= i < |results| ==> !results[i].Success?
    ensures Collect(s, results, OnResult).restaurant == s.restaurant
    decreases |results|
  {
    if results != [] {
      FailedLoadKeepsRestaurant(OnResult(s, results[0]), results[1..]);
    }
  }

  /**
   * A whole load, end to end: the state holder asks the repository for its own
   * id, and folding the trace leaves it not loading, showing the mapped
   * restaurant on a response with a body and keeping the old one with an
   * error otherwise.
   */
  lemma LoadSettles(vm: DetailViewModel, api: string -> RestaurantRepository.Outcome<RestaurantDtos.RestaurantDto>)
    ensures var t := Collect(vm.state, RestaurantRepository.GetRestaurantDetail(vm.restaurantId, api), OnResult);
      var o := api(vm.restaurantId);
      && !t.isLoading
      && (t.error.None? <==> o.Ok? && o.body.Some?)
      && (o.Ok? && o.body.Some? ==> t.restaurant == Some(RestaurantMapper.ToDomain(o.body.value)))
      && (!(o.Ok? && o.body.Some?) ==> t.restaurant == vm.state.restaurant)
  {
    var trace := RestaurantRepository.GetRestaurantDetail(vm.restaurantId, api);
    CollectTwo(vm.state, trace, OnResult);
  }
}

=== FILE: restaurant_dto.dfy ===
/**
 * The wire shapes exchanged with the restaurant API, as the JSON decoder
 * delivers them. The two coded fields arrive raw and may be absent; decoding
 * them is the mapper's job.
 */
module RestaurantDtos {
  import opened Lang
  import opened DomainModel

  /** One restaurant record on the wire. */
  datatype RestaurantDto = RestaurantDto(
    id: string,
    name: string,
    genre: Option<string>,
    priceRange: Option<int>,
    address: string,
    latitude: Option<Double>,
    longitude: Option<Double>,
    imageUrl: Option<string>,
    rating: Option<Double>,
    openingHours: Option<string>,
    description: Option<string>
  )

  /** Body of `GET v1/restaurants`. */
  datatype RestaurantListResponse = RestaurantListResponse(restaurants: seq<RestaurantDto>, total: int)

  /** Body of `POST v1/roulette`; an absent field is left out of the request. */
  datatype RouletteRequest = RouletteRequest(genre: Option<string>, priceRange: Option<int>)

  /** Response of `POST v1/roulette`. */
  datatype RouletteResponse = RouletteResponse(restaurant: RestaurantDto)
}

=== FILE: restaurant_list_view_model.dfy ===
/**
 * The restaurant-list screen's state holder: a reducer over an immutable UI
 * state. User intents change the filters and ask for a reload; the envelopes of
 * a fetch are folded into the state as they arrive.
 */
module RestaurantListViewModel {
  import opened Lang
  import opened DomainModel
  import opened NetworkResults
  import RestaurantDtos
  import RestaurantRepository

  /** The list screen's UI state. An empty genre set means "all genres". */
  datatype ListUiState = ListUiState(
    isLoading: bool,
    restaurants: seq<Restaurant>,
    selectedGenres: set<Genre>,
    selectedPriceRange: PriceRange,
    isOpenNowOnly: bool,
    showFilterSheet: bool,
    error: Option<string>
  )

  /** The state the screen starts in: nothing loaded, no filter, no error. */
  const InitialState: ListUiState :=
    ListUiState(false, [], {}, PriceRange.All, false, false, None)

  /** The genre set never holds the "no filter" marker: no filter is the empty set. */
  predicate GenresInvariant(s: ListUiState) {
    Genre.All !in s.selectedGenres
  }

  /** The user-chosen filter fields of two states agree. */
  predicate SameFilters(s: ListUiState, t: ListUiState) {
    && s.selectedGenres == t.selectedGenres
    && s.selectedPriceRange == t.selectedPriceRange
    && s.isOpenNowOnly == t.isOpenNowOnly
  }

  /** The arguments a load hands to the use case; an absent one is not sent. */
  datatype ListParams = ListParams(genres: Option<set<Genre>>, priceRange: PriceRange, isOpenNow: Option<bool>)

  /**
   * The parameters `loadRestaurants` derives from the current filters: an
   * empty genre set and a false open-now flag are both left out.
   */
  function RequestParams(s: ListUiState): (p: ListParams)
    ensures p.genres.None? <==> s.selectedGenres == {}
    ensures p.genres.Some? ==> p.genres.value == s.selectedGenres
    ensures p.priceRange == s.selectedPriceRange
    ensures p.isOpenNow.Some? <==> s.isOpenNowOnly
    ensures p.isOpenNow != Some(false)
  {
    ListParams(
      TakeIf(s.selectedGenres, s.selectedGenres != {}),
      s.selectedPriceRange,
      TakeIf(true, s.isOpenNowOnly))
  }

  /** A state's request parameters determine its filters and are determined by them. */
  lemma RequestParamsFaithful(s: ListUiState, t: ListUiState)
    ensures RequestParams(s) == RequestParams(t) <==> SameFilters(s, t)
  {
  }

  /**
   * The load the screen starts on creation: from the initial state it sends no
   * genre, the `All` price range and no open-now flag, and leaves the state as it is.
   */
  lemma InitialLoadIsUnfiltered()
    ensures Dispatch(InitialState, Load).reload == Some(ListParams(None, PriceRange.All, None))
    ensures Dispatch(InitialState, Load).state == InitialState
  {
  }

  /** The state after one envelope of a load arrives. */
  function OnResult(s: ListUiState, result: NetworkResult<seq<Restaurant>>): (t: ListUiState)
    ensures SameFilters(s, t) && t.showFilterSheet == s.showFilterSheet
    ensures t.isLoading <==> result.Loading?
    ensures t.error.Some? <==> result.Error?
    ensures result.Error? ==> t.error == Some(result.message)
    ensures result.Success? ==> t.restaurants == result.data
    ensures !result.Success? ==> t.restaurants == s.restaurants
  {
    match result
    case Loading => s.(isLoading := true, error := None)
    case Success(data) => s.(isLoading := false, restaurants := data, error := None)
    case Error(message, _) => s.(isLoading := false, error := Some(message))
  }

  /** `toggleGenre`: `All` clears the set; any other genre is removed if present, added if absent. */
  function ToggleGenre(s: ListUiState, genre: Genre): (t: ListUiState)
    ensures t.(selectedGenres := s.selectedGenres) == s
    ensures genre == Genre.All ==> t.selectedGenres == {}
    ensures genre != Genre.All ==> (genre in t.selectedGenres <==> genre !in s.selectedGenres)
    ensures forall h :: h != genre && genre != Genre.All ==> (h in t.selectedGenres <==> h in s.selectedGenres)
    ensures GenresInvariant(s) ==> GenresInvariant(t)
  {
    var genres :=
      if genre == Genre.All then {}
      else if genre in s.selectedGenres then s.selectedGenres - {genre}
      else s.selectedGenres + {genre};
    s.(selectedGenres := genres)
  }

  /** Toggling the same real genre twice gives back the state it started from. */
  lemma ToggleGenreTwice(s: ListUiState, genre: Genre)
    requires genre != Genre.All
    ensures ToggleGenre(ToggleGenre(s, genre), genre) == s
  {
  }

  /** `setPriceRange`: changes the price filter and nothing else. */
  function SetPriceRange(s: ListUiState, priceRange: PriceRange): (t: ListUiState)
    ensures t.selectedPriceRange == priceRange
    ensures t.(selectedPriceRange := s.selectedPriceRange) == s
  {
    s.(selectedPriceRange := priceRange)
  }

  /** `setOpenNowOnly`: changes the open-now flag and nothing else. */
  function SetOpenNowOnly(s: ListUiState, isOpenNow: bool): (t: ListUiState)
    ensures t.isOpenNowOnly == isOpenNow
    ensures t.(isOpenNowOnly := s.isOpenNowOnly) == s
  {
    s.(isOpenNowOnly := isOpenNow)
  }

  /** `showFilterSheet` / `hideFilterSheet`: changes the sheet flag and nothing else. */
  function SetFilterSheet(s: ListUiState, visible: bool): (t: ListUiState)
    ensures t.showFilterSheet == visible
    ensures t.(showFilterSheet := s.showFilterSheet) == s
  {
    s.(showFilterSheet := visible)
  }

  /** `clearError`: drops the error and changes nothing else. */
  function ClearError(s: ListUiState): (t: ListUiState)
    ensures t.error.None?
    ensures t.(error := s.error) == s
  {
    s.(error := None)
  }

  /** What the user can ask of the list screen. */
  datatype Intent =
    | Load
    | ToggleGenreIntent(genre: Genre)
    | SetPriceRangeIntent(priceRange: PriceRange)
    | SetOpenNowOnlyIntent(isOpenNow: bool)
    | ShowFilterSheet
    | HideFilterSheet
    | ClearErrorIntent

  /** The new state after an intent, and the load it starts, if any. */
  datatype Reaction = Reaction(state: ListUiState, reload: Option<ListParams>)

  /**
   * Handles one intent. Every filter change, and an explicit load, starts a
   * fresh load with the filters as they are after the change; the sheet and
   * error intents start none.
   */
  function Dispatch(s: ListUiState, intent: Intent): (r: Reaction)
    ensures intent.Load? ==> r.state == s
    ensures intent.ToggleGenreIntent? ==> r.state == ToggleGenre(s, intent.genre)
    ensures intent.SetPriceRangeIntent? ==> r.state == SetPriceRange(s, intent.priceRange)
    ensures intent.SetOpenNowOnlyIntent? ==> r.state == SetOpenNowOnly(s, intent.isOpenNow)
    ensures intent.ShowFilterSheet? ==> r.state == SetFilterSheet(s, true)
    ensures intent.HideFilterSheet? ==> r.state == SetFilterSheet(s, false)
    ensures intent.ClearErrorIntent? ==> r.state == ClearError(s)
    ensures r.reload.Some? <==> (intent.Load? || intent.ToggleGenreIntent? || intent.SetPriceRangeIntent? || intent.SetOpenNowOnlyIntent?)
    ensures r.reload.Some? ==> r.reload.value == RequestParams(r.state)
    ensures !SameFilters(s, r.state) ==> r.reload.Some?
    ensures GenresInvariant(s) ==> GenresInvariant(r.state)
  {
    match intent
    case Load => Reaction(s, Some(RequestParams(s)))
    case ToggleGenreIntent(g) =>
      var t := ToggleGenre(s, g); Reaction(t, Some(RequestParams(t)))
    case SetPriceRangeIntent(p) =>
      var t := SetPriceRange(s, p); Reaction(t, Some(RequestParams(t)))
    case SetOpenNowOnlyIntent(b) =>
      var t := SetOpenNowOnly(s, b); Reaction(t, Some(RequestParams(t)))
    case ShowFilterSheet => Reaction(SetFilterSheet(s, true), None)
    case HideFilterSheet => Reaction(SetFilterSheet(s, false), None)
    case ClearErrorIntent => Reaction(ClearError(s), None)
  }

  /** Folding any emissions into the state leaves the filters and the sheet flag alone. */
  lemma {:induction false} CollectKeepsFilters(s: ListUiState, results: seq<NetworkResult<seq<Restaurant>>>)
    ensures SameFilters(s, Collect(s, results, OnResult))
    ensures Collect(s, results, OnResult).showFilterSheet == s.showFilterSheet
    decreases |results|
  {
    if results != [] {
      CollectKeepsFilters(OnResult(s, results[0]), results[1..]);
    }
  }

  /** After folding a non-empty run of emissions, the screen is loading exactly when the last one was `Loading`. */
  lemma {:induction false} CollectLoadingFlag(s: ListUiState, results: seq<NetworkResult<seq<Restaurant>>>)
    requires results != []
    ensures Collect(s, results, OnResult).isLoading <==> results[|results| - 1].Loading?
    decreases |results|
  {
    if |results| > 1 {
      CollectLoadingFlag(OnResult(s, results[0]), results[1..]);
    }
  }

  /**
   * A whole load, end to end: folding the repository's trace leaves the screen
   * not loading, with the mapped list and no error on a response with a body,
   * and with the previous list and an error otherwise.
   */
  lemma LoadSettles(
    s: ListUiState,
    genre: Option<Genre>,
    priceRange: Option<PriceRange>,
    api: RestaurantRepository.ListQuery -> RestaurantRepository.Outcome<RestaurantDtos.RestaurantListResponse>
  )
    ensures var t := Collect(s, RestaurantRepository.GetRestaurants(genre, priceRange, api), OnResult);
      var o := api(RestaurantRepository.ListQueryFor(genre, priceRange));
      && !t.isLoading
      && SameFilters(s, t)
      && (t.error.None? <==> o.Ok? && o.body.Some?)
      && (o.Ok? && o.body.Some? ==> t.restaurants == RestaurantRepository.ListBodyToDomain(o.body.value))
      && (!(o.Ok? && o.body.Some?) ==> t.restaurants == s.restaurants)
  {
    var trace := RestaurantRepository.GetRestaurants(genre, priceRange, api);
    CollectTwo(s, trace, OnResult);
  }

  /** One thing that can happen to the screen: a user intent or an arriving envelope. */
  datatype Step = Do(intent: Intent) | Receive(result: NetworkResult<seq<Restaurant>>)

  /** The state after one step. */
  function Apply(s: ListUiState, step: Step): ListUiState {
    match step
    case Do(intent) => Dispatch(s, intent).state
    case Receive(result) => OnResult(s, result)
  }

  /** From the initial state, no sequence of intents and envelopes ever puts `All` into the genre set. */
  lemma {:induction false} GenresInvariantAlwaysHolds(steps: seq<Step>)
    ensures GenresInvariant(Collect(InitialState, steps, Apply))
  {
    GenresInvariantPreserved(InitialState, steps);
  }

  /** Every step preserves the genre-set invariant, so every run from a good state does. */
  lemma {:induction false} GenresInvariantPreserved(s: ListUiState, steps: seq<Step>)
    requires GenresInvariant(s)
    ensures GenresInvariant(Collect(s, steps, Apply))
    decreases |steps|
  {
    if steps != [] {
      GenresInvariantPreserved(Apply(s, steps[0]), steps[1..]);
    }
  }
}

=== FILE: restaurant_mapper.dfy ===
/**
 * DTO-to-domain mapping: a field-by-field projection that routes the two
 * coded fields through the enum decoders.
 */
module RestaurantMapper {
  import opened Lang
  import opened DomainModel
  import opened RestaurantDtos

  /** `RestaurantDto.toDomain()`. */
  function ToDomain(dto: RestaurantDto): (r: Restaurant)
    ensures r.id == dto.id && r.name == dto.name && r.address == dto.address
    ensures r.genre == GenreFromApiValue(dto.genre) && r.genre != Genre.All
    ensures r.priceRange == PriceRangeFromApiValue(dto.priceRange)
    ensures dto.priceRange.None? ==> r.priceRange == Medium
    ensures r.latitude == dto.latitude && r.longitude == dto.longitude
    ensures r.imageUrl == dto.imageUrl && r.openingHours == dto.openingHours
    ensures r.rating == dto.rating && r.description == dto.description
  {
    Restaurant(
      id := dto.id,
      name := dto.name,
      genre := GenreFromApiValue(dto.genre),
      priceRange := PriceRangeFromApiValue(dto.priceRange),
      address := dto.address,
      latitude := dto.latitude,
      longitude := dto.longitude,
      imageUrl := dto.imageUrl,
      rating := dto.rating,
      openingHours := dto.openingHours,
      description := dto.description
    )
  }

  /** `List<RestaurantDto>.toDomain()`: maps every element, in order, dropping none. */
  function ToDomainList(dtos: seq<RestaurantDto>): (rs: seq<Restaurant>)
    ensures |rs| == |dtos|
    ensures forall i :: 0 <= i < |dtos| ==> rs[i] == ToDomain(dtos[i])
    ensures forall i :: 0 <= i < |rs| ==> rs[i].genre != Genre.All
  {
    if dtos == [] then []
    else [ToDomain(dtos[0])] + ToDomainList(dtos[1..])
  }

  /**
   * The wire record a restaurant would arrive as: the reference encoding the
   * mapper inverts. Both coded fields are present and carry the enum's wire value.
   */
  function ToDto(r: Restaurant): RestaurantDto {
    RestaurantDto(
      r.id, r.name, Some(r.genre.ApiValue()), Some(r.priceRange.ApiValue()), r.address,
      r.latitude, r.longitude, r.imageUrl, r.rating, r.openingHours, r.description)
  }

  /** A wire record whose coded fields are present and name real enum members. */
  ghost predicate IsCanonical(dto: RestaurantDto) {
    && dto.genre.Some? && IsGenreWireValue(dto.genre.value)
    && dto.priceRange.Some? && 0 <= dto.priceRange.value <= 3
  }

  /** Mapping recovers any restaurant whose genre is a real one from its wire record. */
  lemma ToDomainInvertsToDto(r: Restaurant)
    requires r.genre != Genre.All
    ensures IsCanonical(ToDto(r))
    ensures ToDomain(ToDto(r)) == r
  {
    GenreRoundTrip(r.genre);
    PriceRangeRoundTrip(r.priceRange);
  }

  /** A canonical wire record loses nothing in mapping: encoding the result gives it back. */
  lemma ToDtoInvertsToDomain(dto: RestaurantDto)
    requires IsCanonical(dto)
    ensures ToDto(ToDomain(dto)) == dto
  {
  }

  /** Mapping a concatenation maps each part: the list mapper works element by element. */
  lemma ToDomainListAppend(a: seq<RestaurantDto>, b: seq<RestaurantDto>)
    ensures ToDomainList(a + b) == ToDomainList(a) + ToDomainList(b)
  {
  }
}

=== FILE: restaurant_repository.dfy ===
/**
 * The repository: normalises the filters of a request, calls the API, and
 * reports the outcome as the trace of envelopes its flow emits.
 *
 * The HTTP client is not modelled. Each operation takes the API as a function
 * from the request it sends to the outcome that comes back.
 */
module RestaurantRepository {
  import opened Lang
  import opened DomainModel
  import opened RestaurantDtos
  import opened RestaurantMapper
  import opened NetworkResults

  /**
   * What one API call produced: a successful response with or without a body,
   * an unsuccessful response with its status code, or an exception with its
   * (nullable) message.
   */
  datatype Outcome<+B> = Ok(body: Option<B>) | HttpFail(code: int) | Threw(message: Option<string>)

  /** Query parameters of `GET v1/restaurants`; an absent one is not sent. */
  datatype ListQuery = ListQuery(genre: Option<string>, priceRange: Option<int>)

  const EmptyResponseMessage: string := "レスポンスが空です"
  const HttpErrorMessage: string := "エラーが発生しました"
  const UnknownErrorMessage: string := "不明なエラーが発生しました"

  /** `genre?.takeIf { it != Genre.ALL }?.apiValue`: a null or `All` filter is omitted. */
  function GenreParam(genre: Option<Genre>): (r: Option<string>)
    ensures r.None? <==> genre.None? || genre.value == Genre.All
    ensures r.Some? ==> r.value == genre.value.ApiValue()
    ensures r.Some? ==> GenreFromApiValue(r) == genre.value
    ensures r != Some(Genre.All.ApiValue())
  {
    match genre
    case Some(g) =>
      if g != Genre.All then
        GenreRoundTrip(g);
        Some(g.ApiValue())
      else None
    case None => None
  }

  /** `priceRange?.takeIf { it != PriceRange.ALL }?.apiValue`: a null or `All` filter is omitted. */
  function PriceRangeParam(priceRange: Option<PriceRange>): (r: Option<int>)
    ensures r.None? <==> priceRange.None? || priceRange.value == PriceRange.All
    ensures r.Some? ==> r.value == priceRange.value.ApiValue()
    ensures r.Some? ==> PriceRangeFromApiValue(r) == priceRange.value
    ensures r.Some? ==> 1 <= r.value <= 3
  {
    match priceRange
    case Some(p) =>
      if p != PriceRange.All then
        PriceRangeRoundTrip(p);
        Some(p.ApiValue())
      else None
    case None => None
  }

  /** The query `getRestaurants` sends for the given filters. */
  function ListQueryFor(genre: Option<Genre>, priceRange: Option<PriceRange>): ListQuery {
    ListQuery(GenreParam(genre), PriceRangeParam(priceRange))
  }

  /** The request body `spinRoulette` sends for the given filters. */
  function RouletteRequestFor(genre: Option<Genre>, priceRange: Option<PriceRange>): RouletteRequest {
    RouletteRequest(GenreParam(genre), PriceRangeParam(priceRange))
  }

  /**
   * The terminal envelope for an outcome: the converted body on success, and
   * one of three distinct error shapes otherwise.
   */
  function Classify<B, T>(o: Outcome<B>, convert: B -> T): (r: NetworkResult<T>)
    ensures r.IsTerminal()
    ensures r.Success? <==> o.Ok? && o.body.Some?
    ensures r.Success? ==> r.data == convert(o.body.value)
    ensures (r.Error? && r.code.Some?) <==> o.HttpFail?
    ensures o.HttpFail? ==> r == Error(HttpErrorMessage, Some(o.code))
    ensures o == Ok(None) ==> r == Error(EmptyResponseMessage, None)
    ensures o.Threw? && o.message.Some? ==> r == Error(o.message.value, None)
    ensures o == Threw(None) ==> r == Error(UnknownErrorMessage, None)
  {
    match o
    case Ok(Some(body)) => Success(convert(body))
    case Ok(None) => Error(EmptyResponseMessage, None)
    case HttpFail(code) => Error(HttpErrorMessage, Some(code))
    case Threw(message) =>
      Error(match message case Some(m) => m case None => UnknownErrorMessage, None)
  }

  /** The domain list carried by a list response. */
  function ListBodyToDomain(body: RestaurantListResponse): seq<Restaurant> {
    ToDomainList(body.restaurants)
  }

  /** The domain restaurant carried by a roulette response. */
  function RouletteBodyToDomain(body: RouletteResponse): Restaurant {
    ToDomain(body.restaurant)
  }

  /** `getRestaurants`: the emitted trace for the outcome of the normalised list query. */
  function GetRestaurants(
    genre: Option<Genre>,
    priceRange: Option<PriceRange>,
    api: ListQuery -> Outcome<RestaurantListResponse>
  ): (trace: seq<NetworkResult<seq<Restaurant>>>)
    ensures IsFetchTrace(trace)
    ensures trace[1] == Classify(api(ListQueryFor(genre, priceRange)), ListBodyToDomain)
    ensures trace[1].Success? ==> forall i :: 0 <= i < |trace[1].data| ==> trace[1].data[i].genre != Genre.All
  {
    [Loading, Classify(api(ListQueryFor(genre, priceRange)), ListBodyToDomain)]
  }

  /** `getRestaurantDetail`: the emitted trace for the outcome of fetching restaurant `id`. */
  function GetRestaurantDetail(id: string, api: string -> Outcome<RestaurantDto>): (trace: seq<NetworkResult<Restaurant>>)
    ensures IsFetchTrace(trace)
    ensures trace[1] == Classify(api(id), ToDomain)
  {
    [Loading, Classify(api(id), ToDomain)]
  }

  /** `spinRoulette`: the emitted trace for the outcome of the normalised roulette request. */
  function SpinRoulette(
    genre: Option<Genre>,
    priceRange: Option<PriceRange>,
    api: RouletteRequest -> Outcome<RouletteResponse>
  ): (trace: seq<NetworkResult<Restaurant>>)
    ensures IsFetchTrace(trace)
    ensures trace[1] == Classify(api(RouletteRequestFor(genre, priceRange)), RouletteBodyToDomain)
  {
    [Loading, Classify(api(RouletteRequestFor(genre, priceRange)), RouletteBodyToDomain)]
  }

  /**
   * The three error categories are told apart by their envelopes: an empty
   * body, an HTTP failure and an exception without a message never produce
   * the same `Error`.
   */
  lemma ErrorCategoriesDistinct<B, T>(code: int, convert: B -> T)
    ensures Classify(Ok(None), convert) != Classify(HttpFail(code), convert)
    ensures Classify(Ok(None), convert) != Classify(Threw(None), convert)
    ensures Classify(HttpFail(code), convert) != Classify(Threw(None), convert)
    ensures Classify(Ok(None), convert).message != Classify(Threw(None), convert).message
  {
  }
}

=== FILE: roulette_view_model.dfy ===
/**
 * The roulette screen's state holder. A spin folds the envelopes of the
 * roulette request into the state. A separate candidate refresh fetches the
 * list the spin animation cycles through, and it silently ignores everything
 * but success.
 */
module RouletteViewModel {
  import opened Lang
  import opened DomainModel
  import opened NetworkResults
  import RestaurantDtos
  import RestaurantRepository

  /** The roulette screen's UI state. `All` in a filter field means "no filter". */
  datatype RouletteUiState = RouletteUiState(
    isSpinning: bool,
    selectedRestaurant: Option<Restaurant>,
    candidateRestaurants: seq<Restaurant>,
    selectedGenre: Genre,
    selectedPriceRange: PriceRange,
    isOpenNowOnly: bool,
    showFilterSheet: bool,
    error: Option<string>
  )

  /** The state the screen starts in: not spinning, nothing picked, no candidates, no filter. */
  const InitialState: RouletteUiState :=
    RouletteUiState(false, None, [], Genre.All, PriceRange.All, false, false, None)

  /** The arguments a spin hands to the use case: the filters as selected, `All` included. */
  datatype SpinParams = SpinParams(genre: Genre, priceRange: PriceRange, isOpenNow: Option<bool>)

  /** The arguments a candidate refresh hands to the use case; an absent one is not sent. */
  datatype CandidateParams = CandidateParams(genre: Option<Genre>, priceRange: Option<PriceRange>, isOpenNow: Option<bool>)

  /** The parameters `spinRoulette` derives: the filters as they are, with a false open-now flag left out. */
  function SpinParamsOf(s: RouletteUiState): (p: SpinParams)
    ensures p.genre == s.selectedGenre && p.priceRange == s.selectedPriceRange
    ensures p.isOpenNow.Some? <==> s.isOpenNowOnly
    ensures p.isOpenNow != Some(false)
  {
    SpinParams(s.selectedGenre, s.selectedPriceRange, TakeIf(true, s.isOpenNowOnly))
  }

  /** The parameters `loadCandidates` derives: `All` filters and a false open-now flag are left out. */
  function CandidateParamsOf(s: RouletteUiState): (p: CandidateParams)
    ensures p.genre.None? <==> s.selectedGenre == Genre.All
    ensures p.genre.Some? ==> p.genre.value == s.selectedGenre
    ensures p.priceRange.None? <==> s.selectedPriceRange == PriceRange.All
    ensures p.priceRange.Some? ==> p.priceRange.value == s.selectedPriceRange
    ensures p.isOpenNow.Some? <==> s.isOpenNowOnly
    ensures p.isOpenNow != Some(false)
  {
    CandidateParams(
      TakeIf(s.selectedGenre, s.selectedGenre != Genre.All),
      TakeIf(s.selectedPriceRange, s.selectedPriceRange != PriceRange.All),
      TakeIf(true, s.isOpenNowOnly))
  }

  /**
   * The spin passes `All` through while the candidate refresh drops it, but
   * the repository's own normalisation makes the roulette request and the
   * candidate list query carry the same filters.
   */
  lemma SpinAndCandidatesSendSameFilters(s: RouletteUiState)
    ensures var p := SpinParamsOf(s); var c := CandidateParamsOf(s);
      var spin := RestaurantRepository.RouletteRequestFor(Some(p.genre), Some(p.priceRange));
      var refresh := RestaurantRepository.ListQueryFor(c.genre, c.priceRange);
      && spin.genre == refresh.genre
      && spin.priceRange == refresh.priceRange
      && (spin.genre.Some? <==> s.selectedGenre != Genre.All)
      && (spin.priceRange.Some? <==> s.selectedPriceRange != PriceRange.All)
  {
  }

  /**
   * The refresh the screen starts on creation sends no filters: the initial
   * state selects every genre and price and does not restrict to open places.
   */
  lemma InitialRefreshIsUnfiltered()
    ensures CandidateParamsOf(InitialState) == CandidateParams(None, None, None)
    ensures RestaurantRepository.ListQueryFor(CandidateParamsOf(InitialState).genre, CandidateParamsOf(InitialState).priceRange)
         == RestaurantRepository.ListQuery(None, None)
  {
  }

  /** The state after one envelope of a spin arrives. */
  function OnSpinResult(s: RouletteUiState, result: NetworkResult<Restaurant>): (t: RouletteUiState)
    ensures t.(isSpinning := s.isSpinning, selectedRestaurant := s.selectedRestaurant, error := s.error) == s
    ensures t.isSpinning <==> result.Loading?
    ensures t.error.Some? <==> result.Error?
    ensures result.Error? ==> t.error == Some(result.message)
    ensures result.Success? ==> t.selectedRestaurant == Some(result.data)
    ensures !result.Success? ==> t.selectedRestaurant == s.selectedRestaurant
  {
    match result
    case Loading => s.(isSpinning := true, error := None)
    case Success(data) => s.(isSpinning := false, selectedRestaurant := Some(data), error := None)
    case Error(message, _) => s.(isSpinning := false, error := Some(message))
  }

  /** The state after one envelope of a candidate refresh arrives: only a success is noticed. */
  function OnCandidatesResult(s: RouletteUiState, result: NetworkResult<seq<Restaurant>>): (t: RouletteUiState)
    ensures t.(candidateRestaurants := s.candidateRestaurants) == s
    ensures result.Success? ==> t.candidateRestaurants == result.data
    ensures !result.Success? ==> t == s
  {
    if result.Success? then s.(candidateRestaurants := result.data) else s
  }

  /** `setGenre`: changes the genre filter and nothing else. */
  function SetGenre(s: RouletteUiState, genre: Genre): (t: RouletteUiState)
    ensures t.selectedGenre == genre
    ensures t.(selectedGenre := s.selectedGenre) == s
  {
    s.(selectedGenre := genre)
  }

  /** `setPriceRange`: changes the price filter and nothing else. */
  function SetPriceRange(s: RouletteUiState, priceRange: PriceRange): (t: RouletteUiState)
    ensures t.selectedPriceRange == priceRange
    ensures t.(selectedPriceRange := s.selectedPriceRange) == s
  {
    s.(selectedPriceRange := priceRange)
  }

  /** `setOpenNowOnly`: changes the open-now flag and nothing else. */
  function SetOpenNowOnly(s: RouletteUiState, isOpenNow: bool): (t: RouletteUiState)
    ensures t.isOpenNowOnly == isOpenNow
    ensures t.(isOpenNowOnly := s.isOpenNowOnly) == s
  {
    s.(isOpenNowOnly := isOpenNow)
  }

  /** `showFilterSheet` / `hideFilterSheet`: changes the sheet flag and nothing else. */
  function SetFilterSheet(s: RouletteUiState, visible: bool): (t: RouletteUiState)
    ensures t.showFilterSheet == visible
    ensures t.(showFilterSheet := s.showFilterSheet) == s
  {
    s.(showFilterSheet := visible)
  }

  /** `clearResult`: forgets the pick and the error, and changes nothing else. */
  function ClearResult(s: RouletteUiState): (t: RouletteUiState)
    ensures t.selectedRestaurant.None? && t.error.None?
    ensures t.(selectedRestaurant := s.selectedRestaurant, error := s.error) == s
  {
    s.(selectedRestaurant := None, error := None)
  }

  /** `clearError`: drops the error and changes nothing else. */
  function ClearError(s: RouletteUiState): (t: RouletteUiState)
    ensures t.error.None?
    ensures t.(error := s.error) == s
  {
    s.(error := None)
  }

  /** What the user can ask of the roulette screen. */
  datatype Intent =
    | Spin
    | SetGenreIntent(genre: Genre)
    | SetPriceRangeIntent(priceRange: PriceRange)
    | SetOpenNowOnlyIntent(isOpenNow: bool)
    | ShowFilterSheet
    | HideFilterSheet
    | ClearResultIntent
    | ClearErrorIntent

  /** The fetch an intent starts, if any. */
  datatype Effect = NoFetch | RefreshCandidates(candidates: CandidateParams) | StartSpin(spin: SpinParams)

  /** The new state after an intent, and the fetch it starts. */
  datatype Reaction = Reaction(state: RouletteUiState, effect: Effect)

  /**
   * Handles one intent. A spin starts a roulette request with the current
   * filters; every filter change refreshes the candidates with the filters as
   * they are after the change; the other intents start no fetch.
   */
  function Dispatch(s: RouletteUiState, intent: Intent): (r: Reaction)
    ensures intent.Spin? ==> r.state == s
    ensures intent.SetGenreIntent? ==> r.state == SetGenre(s, intent.genre)
    ensures intent.SetPriceRangeIntent? ==> r.state == SetPriceRange(s, intent.priceRange)
    ensures intent.SetOpenNowOnlyIntent? ==> r.state == SetOpenNowOnly(s, intent.isOpenNow)
    ensures intent.ShowFilterSheet? ==> r.state == SetFilterSheet(s, true)
    ensures intent.HideFilterSheet? ==> r.state == SetFilterSheet(s, false)
    ensures intent.ClearResultIntent? ==> r.state == ClearResult(s)
    ensures intent.ClearErrorIntent? ==> r.state == ClearError(s)
    ensures r.effect.StartSpin? <==> intent.Spin?
    ensures r.effect.StartSpin? ==> r.state == s && r.effect.spin == SpinParamsOf(s)
    ensures r.effect.RefreshCandidates? <==> (intent.SetGenreIntent? || intent.SetPriceRangeIntent? || intent.SetOpenNowOnlyIntent?)
    ensures r.effect.RefreshCandidates? ==> r.effect.candidates == CandidateParamsOf(r.state)
    ensures CandidateParamsOf(r.state) != CandidateParamsOf(s) ==> r.effect.RefreshCandidates?
  {
    match intent
    case Spin => Reaction(s, StartSpin(SpinParamsOf(s)))
    case SetGenreIntent(g) =>
      var t := SetGenre(s, g); Reaction(t, RefreshCandidates(CandidateParamsOf(t)))
    case SetPriceRangeIntent(p) =>
      var t := SetPriceRange(s, p); Reaction(t, RefreshCandidates(CandidateParamsOf(t)))
    case SetOpenNowOnlyIntent(b) =>
      var t := SetOpenNowOnly(s, b); Reaction(t, RefreshCandidates(CandidateParamsOf(t)))
    case ShowFilterSheet => Reaction(SetFilterSheet(s, true), NoFetch)
    case HideFilterSheet => Reaction(SetFilterSheet(s, false), NoFetch)
    case ClearResultIntent => Reaction(ClearResult(s), NoFetch)
    case ClearErrorIntent => Reaction(ClearError(s), NoFetch)
  }

  /** A refresh that never succeeds leaves the state exactly as it was: its failures are swallowed. */
  lemma {:induction false} FailedRefreshChangesNothing(s: RouletteUiState, results: seq<NetworkResult<seq<Restaurant>>>)
    requires forall i :: 0 <= i < |results| ==> !results[i].Success?
    ensures Collect(s, results, OnCandidatesResult) == s
    decreases |results|
  {
    if results != [] {
      FailedRefreshChangesNothing(OnCandidatesResult(s, results[0]), results[1..]);
    }
  }

  /** A refresh touches the candidate list and nothing else, whatever it emits. */
  lemma {:induction false} RefreshTouchesOnlyCandidates(s: RouletteUiState, results: seq<NetworkResult<seq<Restaurant>>>)
    ensures Collect(s, results, OnCandidatesResult).(candidateRestaurants := s.candidateRestaurants) == s
    decreases |results|
  {
    if results != [] {
      var s1 := OnCandidatesResult(s, results[0]);
      RefreshTouchesOnlyCandidates(s1, results[1..]);
    }
  }

  /** Emissions of a spin that never succeeds leave the displayed pick as it was. */
  lemma {:induction false} FailedSpinKeepsPick(s: RouletteUiState, results: seq<NetworkResult<Restaurant>>)
    requires forall i :: 0 <= i < |results| ==> !results[i].Success?
    ensures Collect(s, results, OnSpinResult).selectedRestaurant == s.selectedRestaurant
    decreases |results|
  {
    if results != [] {
      FailedSpinKeepsPick(OnSpinResult(s, results[0]), results[1..]);
    }
  }

  /**
   * A whole spin, end to end: folding the repository's trace for the spin's
   * parameters stops the spinning, picks the mapped restaurant on a response
   * with a body, and otherwise keeps the previous pick and shows an error.
   */
  lemma SpinSettles(s: RouletteUiState, api: RestaurantDtos.RouletteRequest -> RestaurantRepository.Outcome<RestaurantDtos.RouletteResponse>)
    ensures var p := SpinParamsOf(s);
      var t := Collect(s, RestaurantRepository.SpinRoulette(Some(p.genre), Some(p.priceRange), api), OnSpinResult);
      var o := api(RestaurantRepository.RouletteRequestFor(Some(p.genre), Some(p.priceRange)));
      && !t.isSpinning
      && t.candidateRestaurants == s.candidateRestaurants
      && (t.error.None? <==> o.Ok? && o.body.Some?)
      && (o.Ok? && o.body.Some? ==> t.selectedRestaurant == Some(RestaurantRepository.RouletteBodyToDomain(o.body.value)))
      && (!(o.Ok? && o.body.Some?) ==> t.selectedRestaurant == s.selectedRestaurant)
  {
    var p := SpinParamsOf(s);
    var trace := RestaurantRepository.SpinRoulette(Some(p.genre), Some(p.priceRange), api);
    CollectTwo(s, trace, OnSpinResult);
  }

  /**
   * A whole candidate refresh, end to end: only a response with a body changes
   * the state, and then only the candidate list, to the mapped list.
   */
  lemma RefreshSettles(s: RouletteUiState, api: RestaurantRepository.ListQuery -> RestaurantRepository.Outcome<RestaurantDtos.RestaurantListResponse>)
    ensures var c := CandidateParamsOf(s);
      var t := Collect(s, RestaurantRepository.GetRestaurants(c.genre, c.priceRange, api), OnCandidatesResult);
      var o := api(RestaurantRepository.ListQueryFor(c.genre, c.priceRange));
      && (o.Ok? && o.body.Some? ==> t == s.(candidateRestaurants := RestaurantRepository.ListBodyToDomain(o.body.value)))
      && (!(o.Ok? && o.body.Some?) ==> t == s)
  {
    var c := CandidateParamsOf(s);
    var trace := RestaurantRepository.GetRestaurants(c.genre, c.priceRange, api);
    CollectTwo(s, trace, OnCandidatesResult);
  }
}
